=== FILE: README.md ===
# Image upscaler: worker request handling and client session, modelled in Dafny

The system hands image upscaling to a sandboxed XPC worker. The worker runs the
external `waifu2x-ncnn-vulkan` tool and reports progress to registered
observers. This project models the two pieces of decision logic in that path.

**Worker (`ImageUpscalerService`).** Files `common.dfy`, `decimal.dfy`,
`tokens.dfy`, `progress.dfy` and `service.dfy`.
- The class `Service.ImageUpscalerService` keeps the observer dictionary as
  `observers: map<ObserverId, Callback>`.
- It records what others can see in `trace: seq<Action>`: callbacks invoked,
  `process.run()` called (the launch may still fail), the readability handler
  cleared, and the reply sent.
- The file system is a set of existing paths. The process's fate is a
  parameter: `LaunchFailed(error)` or `Exited(status)`.
- The pipe's output is a sequence of byte chunks. UTF-8 decoding is a function
  parameter that may fail.
- `RequestTrace` states the whole of one `upscaleImage` call, and
  `UpscaleImage` is proved to produce it. Lemmas about `RequestTrace` then
  show the following:
  - the request gets exactly one reply, as its last action;
  - `process.run()` is called exactly once when every check passes (the
    launch may still fail), and never when one fails;
  - every observer registered when the request starts receives every
    progress message once, in order;
  - each message is `"Обработка: "` followed by the first space-separated
    token that itself holds a `%`.
- Swift's `split(separator:)` drops empty pieces, and `Tokens.Split` does the
  same. It is proved to be the inverse of joining with single separators, and
  to split the text on either side of any one separator independently, so
  repeated, leading and trailing separators yield no pieces.
- `String(scale)` is proved to read back as `scale`.

**Client (`ImageUpscaler`).** File `client.dfy`.
- The class `Client.ImageUpscaler` keeps `connection`, `progressCallback` and
  `isReconnecting` as in the source.
- Connections are numbered, and a status map records whether each one is live
  or invalidated. For an invalidated connection it also records whether its
  invalidation handler has run.
- Each event is a method. An interruption may arrive at any time on the live
  connection. An old connection's invalidation handler and the one-second
  reconnect timer are events that the environment delivers once they are
  pending.
- A request in flight is a `PendingCall` that logs every resumption of its
  continuation. Its events are the reply and the 30-second deadline.

The model brings out two behaviours of the code. Neither is assumed away.
- **Reconnects are never suppressed, and they never stop.**
  - Both connection handlers clear `isReconnecting` before calling
    `reconnectXPC`, so its guard never holds for them (`OnInterrupt`,
    `OnInvalidate`).
  - Setup itself invalidates the connection it replaces. That connection's
    invalidation handler then schedules another setup, which invalidates the
    next connection in turn.
  - `InterruptThenReconnect` and `ReconnectCycle` prove this. The state after
    each turn meets the precondition of the next turn, and each turn creates a
    new connection.
- **A reply after the timeout resumes the continuation a second time, and
  the client traps.**
  - The continuation comes from `withCheckedThrowingContinuation`. Resuming it
    a second time is a Swift runtime fatal error. No second result reaches the
    caller; the client process terminates.
  - The timeout work item is cancelled only by the reply.
  - The reply block does not check whether the timeout already resumed the
    continuation. `PendingCall` logs every attempted resumption and sets
    `trapped` on the second (`ReplyAfterDeadline`, `Race`).
  - The worker replies only after the tool exits, because it waits in
    `waitUntilExit`. So every upscale that takes longer than 30 seconds, and
    whose connection stays valid until the worker replies, ends in this trap
    (`LateReplyOnLiveConnection`).
  - The request goes through the plain remote proxy, which has no error
    handler. A reply is dropped when its connection was invalidated first, or
    was interrupted after the request was sent, because the worker that would
    answer has exited. The session counts interruptions, and each call records
    the count when it was sent. After an interruption a long request loses its
    reply, and the timeout resumes the call once without a trap
    (`ReplyLostAfterInterrupt`, `ReplyLostAfterReconnect`).

Other facts about the code that the model follows:
- Before launching, the worker checks only three things: the resources
  directory, the binary, and the two model files. It does not check the input
  file or the output directory.
- For the worker, success means exit status 0. Neither the worker nor the
  session checks that the output file exists. The application's view
  (`ContentView.swift`) checks it after the call returns, and that view is not
  part of this model.
- The arguments are exactly `-i in -o out -n 2 -s scale -m models-cunet -v -g 0`.
- A failed run's error text holds only output the readability handler never
  read. The handler consumes every chunk it reads. After a zero-byte read the
  pipe is at end of file, so the text is the decoding of no bytes
  (`PipeConsistent`, `ErrorTextAfterEndOfFile`).
- The client timeout is 30 seconds.
- Observers are not registered again after a reconnect.

## Model

| member | source | states |
|---|---|---|
| Decimal.IntToStringRoundTrip | ImageUpscalerService/ImageUpscalerService.swift:128 | the decimal text of any scale parses back to that scale, negative values included |
| Decimal.IntToStringInjective | ImageUpscalerService/ImageUpscalerService.swift:128 | different scales give different `-s` arguments |
| Tokens.Split | ImageUpscalerService/ImageUpscalerService.swift:157 | each piece is non-empty and holds no separator, so blank lines and runs of spaces yield nothing |
| Tokens.SplitKeepsEverythingElse | ImageUpscalerService/ImageUpscalerService.swift:157 | concatenating the pieces gives the input with only the separators removed |
| Tokens.SplitJoin | ImageUpscalerService/ImageUpscalerService.swift:161 | splitting non-empty, separator-free pieces joined by single separators gives back exactly those pieces |
| Tokens.SplitSep | ImageUpscalerService/ImageUpscalerService.swift:157 | the text on either side of any one separator splits independently, so runs of separators and separators at either end yield no pieces and never merge their neighbours |
| Tokens.FirstContaining | ImageUpscalerService/ImageUpscalerService.swift:161 | finds a piece exactly when some piece holds the character, and the one it finds is the first such piece |
| Progress.LineMessageSpec | ImageUpscalerService/ImageUpscalerService.swift:158-163 | a line yields a message exactly when it holds a `%`; the message is the prefix plus the first space-separated token with a `%`, which always exists and has no space |
| Progress.LinesMessagesSpec | ImageUpscalerService/ImageUpscalerService.swift:157-166 | a decoded chunk yields one message per line with a `%`, so there are never more messages than lines, and every message is well formed |
| Progress.ChunkMessagesSpec | ImageUpscalerService/ImageUpscalerService.swift:154-169 | an undecodable chunk yields no message; a decodable one yields one message per `%` line |
| Progress.NothingAfterDetach | ImageUpscalerService/ImageUpscalerService.swift:170-173 | after a zero-byte read nothing more is published, whatever output follows |
| Progress.DeliveredWellFormed | ImageUpscalerService/ImageUpscalerService.swift:148-174 | every message the handler publishes is `"Обработка: "` plus a non-empty, space-free token holding a `%` |
| Service.FirstMissingModel | ImageUpscalerService/ImageUpscalerService.swift:99-113 | names the first model file that is missing, and finds none exactly when every model file exists |
| Service.PreflightSpec | ImageUpscalerService/ImageUpscalerService.swift:62-113 | the checks pass exactly when the resources directory, the binary and both model files exist; otherwise code 1, 2 or 4 says which check failed first, and code 4 names the `.param` file before the `.bin` |
| Service.ArgumentsSpec | ImageUpscalerService/ImageUpscalerService.swift:124-138 | the tool gets 13 arguments: `-i`, the input, `-o`, the output, `-n 2`, `-s` and the scale, which parses back to the scale, `-m models-cunet`, `-v`, then `-g 0` |
| Service.ScaleArgumentVerbatim | ImageUpscalerService/ImageUpscalerService.swift:128 | for scales 2, 3 and 4 the `-s` argument is "2", "3" and "4" |
| Service.ErrorTextAfterEndOfFile | ImageUpscalerService/ImageUpscalerService.swift:170-192 | after the handler's zero-byte read a failed run's error text is the decoding of no bytes: the tool's output went to the handler, not to the reply |
| Service.ExitReply | ImageUpscalerService/ImageUpscalerService.swift:184-197 | status 0 gives no error; otherwise the error's code is the status and its text is the unread output, or "Unknown error" when that cannot be decoded |
| Service.BroadcastReceived | ImageUpscalerService/ImageUpscalerService.swift:44-54 | in one notification each registered observer receives the message exactly once and an unregistered one receives nothing |
| Service.BroadcastsAppend | ImageUpscalerService/ImageUpscalerService.swift:44-54 | two runs of notifications in a row are one run over both message lists |
| Service.BroadcastsReceived | ImageUpscalerService/ImageUpscalerService.swift:44-54 | over a run of notifications each registered observer receives every message once, in order; an unregistered one receives none |
| Service.RequestTraceShape | ImageUpscalerService/ImageUpscalerService.swift:56-202 | every request gets exactly one reply, its last action, with the expected error; `process.run()` is called exactly once when the checks pass (the launch may still fail) and never when one fails; the handler is cleared just before the reply |
| Service.RequestProgressReceived | ImageUpscalerService/ImageUpscalerService.swift:148-174 | during a request each observer registered when it started receives all the handler's messages in order; other observers, failed checks and failed launches publish nothing |
| Service.ImageUpscalerService.PerformCalculation | ImageUpscalerService/ImageUpscalerService.swift:16-19 | replies with the sum when it fits in a 64-bit `Int`; otherwise the addition traps and no reply is sent |
| Service.ImageUpscalerService.AddProgressObserver | ImageUpscalerService/ImageUpscalerService.swift:24-35 | the observer's entry becomes the new callback, replacing any earlier one; other entries are unchanged; the count grows by one only for a new observer |
| Service.ImageUpscalerService.RemoveProgressObserver | ImageUpscalerService/ImageUpscalerService.swift:37-42 | only the observer's entry is deleted; nothing changes if it was absent |
| Service.ImageUpscalerService.NotifyProgress | ImageUpscalerService/ImageUpscalerService.swift:44-54 | invokes each registered callback once with the message, in some order, and nothing else |
| Service.ImageUpscalerService.RelayLine | ImageUpscalerService/ImageUpscalerService.swift:158-165 | a line without a `%` changes nothing observable; a line with one notifies every observer once with the line's message |
| Service.ImageUpscalerService.RelayLines | ImageUpscalerService/ImageUpscalerService.swift:157-166 | the lines of a chunk give one notification per `%` line, in line order, appended to what happened before |
| Service.ImageUpscalerService.HandleReadable | ImageUpscalerService/ImageUpscalerService.swift:148-174 | a zero-byte read clears the handler; any other read notifies all observers once per message of the chunk, in line order |
| Service.ImageUpscalerService.RelayOutput | ImageUpscalerService/ImageUpscalerService.swift:148-174 | across the process's life the handler broadcasts every message up to the first zero-byte read, then clears itself |
| Service.ImageUpscalerService.CheckResources | ImageUpscalerService/ImageUpscalerService.swift:62-113 | the checks in code order produce the error described by `Preflight` |
| Service.ImageUpscalerService.ConfigureProcess | ImageUpscalerService/ImageUpscalerService.swift:115-139 | the process gets the binary in the resources directory, the argument list of `ArgumentsSpec`, and the resources directory as its working directory, which overrides the temporary work directory set first |
| Service.ImageUpscalerService.RunTool | ImageUpscalerService/ImageUpscalerService.swift:115-201 | calls `process.run()` on the binary from the resources directory with the argument list; relays the output only when the launch succeeds; in either case then clears the handler and sends the reply for the launch outcome |
| Service.ImageUpscalerService.UpscaleImage | ImageUpscalerService/ImageUpscalerService.swift:56-202 | on an environment one pipe can produce, what it does is exactly `RequestTrace`: either a failed check's reply, or the run, the relayed progress, the handler cleared and the one reply; observers are untouched |
| Client.ReplyResumption | UpscalerShared/ImageUpscaler.swift:162-168 | a nil error returns and any other error is thrown |
| Client.PendingCall.OnReply | UpscalerShared/ImageUpscaler.swift:155-169 | while the session is alive, the reply cancels the timeout and resumes once more, whatever happened before; the client traps if that is a second resumption |
| Client.PendingCall.OnDeadline | UpscalerShared/ImageUpscaler.swift:144-153 | unless cancelled, the deadline resumes with code 4 "Operation timeout"; it never checks for an earlier resumption, and traps if there was one |
| Client.ReplyBeforeDeadline | UpscalerShared/ImageUpscaler.swift:140-170 | a reply before the deadline resolves the call exactly once, with no trap: success on a nil error, otherwise that error |
| Client.DeadlineWithoutReply | UpscalerShared/ImageUpscaler.swift:144-153 | with no reply the call fails with code 4 "Operation timeout", with no trap |
| Client.ReplyAfterDeadline | UpscalerShared/ImageUpscaler.swift:140-169 | a reply after the deadline resumes the checked continuation a second time, after the timeout error, and the client traps |
| Client.ImageUpscaler.ReplyArrives | UpscalerShared/ImageUpscaler.swift:133-169 | the reply runs the reply block only while the connection it was sent on is live and has not been interrupted since the request was sent; otherwise nothing happens |
| Client.LateReplyOnLiveConnection | UpscalerShared/ImageUpscaler.swift:140-169 | a reply after the deadline on a connection still valid resumes the call a second time, and the client traps |
| Client.ReplyLostAfterInterrupt | UpscalerShared/ImageUpscaler.swift:56-169 | after an interruption, even before its reconnect, the request's reply is dropped and the timeout resumes the call once, with no trap |
| Client.ReplyLostAfterReconnect | UpscalerShared/ImageUpscaler.swift:40-169 | after an interruption's reconnect the request's connection is invalidated, its reply is dropped, and the timeout resumes the call once, with no trap |
| Client.Race | UpscalerShared/ImageUpscaler.swift:140-170 | in either order the continuation is resumed once or twice, twice exactly when the deadline comes first; the client traps exactly then; the call's outcome is the timeout error when the deadline comes first and the reply's otherwise |
| Client.ImageUpscaler.constructor | UpscalerShared/ImageUpscaler.swift:20-28 | the session starts connected through connection 0, live, with the flag cleared |
| Client.ImageUpscaler.Setup | UpscalerShared/ImageUpscaler.swift:30-91 | skipped with nothing changed while the flag is set; otherwise the old connection is invalidated and dropped before a new one, never used before, is created, stored and resumed, and the flag ends cleared; at most one connection stays live |
| Client.ImageUpscaler.ReconnectXPC | UpscalerShared/ImageUpscaler.swift:93-108 | schedules one delayed reconnect unless the flag is set |
| Client.ImageUpscaler.OnInterrupt | UpscalerShared/ImageUpscaler.swift:56-60 | counts the interruption and always schedules a reconnect: the flag is cleared before the guard reads it |
| Client.ImageUpscaler.OnInvalidate | UpscalerShared/ImageUpscaler.swift:62-66 | marks the handler as run and always schedules a reconnect |
| Client.ImageUpscaler.OnReconnectTimerFire | UpscalerShared/ImageUpscaler.swift:100-107 | consumes the timer; checks the flag again and runs setup only when it is clear |
| Client.ImageUpscaler.SetProgressCallback | UpscalerShared/ImageUpscaler.swift:110-121 | always stores the callback; registers with the service only through a connection with a proxy |
| Client.ImageUpscaler.Submit | UpscalerShared/ImageUpscaler.swift:123-171 | throws exactly when there is no connection (code 2) or no proxy (code 3), sending nothing; otherwise it does not throw, sends one request on the current connection and returns a fresh pending call tied to that connection |
| Client.ImageUpscaler.Deinit | UpscalerShared/ImageUpscaler.swift:173-179 | removes the observer through the proxy before invalidating the connection |
| Client.ImageUpscaler.InterruptThenReconnect | UpscalerShared/ImageUpscaler.swift:40-66 | an interruption and its reconnect replace the connection and leave the old one's invalidation handler pending |
| Client.ImageUpscaler.ReconnectCycle | UpscalerShared/ImageUpscaler.swift:30-108 | the pending invalidation handler and its reconnect create a new connection and leave the next handler pending, so reconnecting never stops |

## Left out

- Logging (`Logger`), `Bundle` lookup and the `NSXPCInterface` class set-up in `addProgressObserver` are left out. The bundle path is a field of the environment.
- NSSecureCoding is transport and is left out. `encode(with:)` writes nothing. `init?(coder:)` runs the same connection setup as `init`, and the constructor models both.
- Client.ImageUpscaler.Submit: `scale` is a required parameter; the Swift default `scale: Int = 2` is not modelled.
- UTF-8 decoding is a parameter of the model, not defined in it.
- Swift splits a `String` into grapheme clusters. `"\r\n"` is therefore one character and does not split at `"\n"`. The model splits code point by code point.
- `appendingPathComponent` is modelled as joining with one `/`. Its normalisation of trailing and doubled slashes is not modelled.
- Creating the temporary work directory is left out, because its result is ignored.
- `Process.run`, `waitUntilExit` and the pipe are replaced by the launch outcome, the chunk sequence and the unread output. Threads become an interleaving of atomic events, so a readability callback racing the termination path is not modelled.
- The `#available(macOS 10.15, *)` check is taken as true, so `-g 0` is always appended.
- The `connection != nil` guard right after storing the new connection cannot fail. The proxy check after `resume()` only logs. Neither is modelled.
- Proxy resolution (`remoteObjectProxy as? …`) is a boolean parameter.
- The weak `self` captures are modelled only in the reply block, through the `ownerAlive` parameter. The session is a process-wide singleton.
- The client's progress forwarding (the closure in `setProgressCallback` that calls the current `progressCallback`) is not modelled as an event; only the stored callback is.
- Invalidation or interruption started by the system, rather than by the session, appears only as the `OnInterrupt` event on the live connection.
- Service.ImageUpscalerService.PerformCalculation: the integer-overflow trap is modelled as the absence of a reply, not as the worker process terminating.

=== FILE: client.dfy ===
/** The client-side session (`ImageUpscaler`): one XPC connection at a time,
    torn down and rebuilt on interruption or invalidation, and requests
    raced against a 30-second timeout. Threads become an interleaving of
    atomic events, each a method below; timers and connection handlers are
    events the environment may deliver once they are pending. */
module Client {
  import opened Common

  /** A connection, known by the order in which the session created it. */
  type ConnId = nat

  /** A message sent to the service through a connection's proxy. */
  datatype Op =
    | AddObserver
    | RemoveObserver
    | Upscale(inputPath: string, outputPath: string, scale: int)

  /** What the session does to its connections. */
  datatype SessionEvent =
    | Created(conn: ConnId)        // `NSXPCConnection(serviceName:)` with its handlers set
    | Resumed(conn: ConnId)        // `resume()`
    | Invalidated(conn: ConnId)    // `invalidate()`
    | Sent(conn: ConnId, op: Op)   // a call on the connection's remote proxy

  /** A connection is live until invalidated; once invalidated, its
      invalidation handler is still to run (false) or has run (true). */
  datatype ConnStatus = Live | Dead(handlerRan: bool)

  /** How the awaiting `upscaleImage` call is resumed. */
  datatype Resumption = Returned | Threw(error: NSError)

  const ClientDomain: string := "ImageUpscaler"

  function NoConnectionError(): NSError { NSError(ClientDomain, 2, "XPC connection not available") }
  function NoProxyError(): NSError { NSError(ClientDomain, 3, "Failed to get remote object proxy") }
  function TimeoutError(): NSError { NSError(ClientDomain, 4, "Operation timeout") }

  /** The resumption a reply block performs: return on a nil error, throw it otherwise. */
  function ReplyResumption(error: Option<NSError>): (r: Resumption)
    ensures r.Returned? <==> error.None?
    ensures r.Threw? ==> r.error == error.value
  {
    match error
    case None => Returned
    case Some(e) => Threw(e)
  }

  /** One `upscaleImage` call in flight: its checked continuation, the
      timeout work item scheduled 30 seconds ahead, and the service's reply
      block. A checked continuation must be resumed exactly once: the first
      resumption decides the call, and a second one is a runtime fatal error
      that terminates the client. */
  class PendingCall {
    /** The connection the request was sent on; the reply can only come back on it. */
    const conn: ConnId
    /** How many interruptions the session had seen when the request was sent. */
    const interruptionsAtSend: nat
    /** Every attempt to resume the continuation, in order. */
    var resumes: seq<Resumption>
    /** A resumption was attempted after the first: the client has trapped. */
    var trapped: bool
    /** `timeoutWork.cancel()` has been called. */
    var timeoutCancelled: bool
    /** The 30-second deadline has been reached and the work item dispatched. */
    var deadlinePassed: bool
    /** The service has called the reply block. */
    var replied: bool

    constructor (sentOn: ConnId, interruptionsSoFar: nat)
      ensures conn == sentOn && interruptionsAtSend == interruptionsSoFar
      ensures resumes == [] && !trapped && !timeoutCancelled && !deadlinePassed && !replied
    {
      conn, interruptionsAtSend := sentOn, interruptionsSoFar;
      resumes, trapped, timeoutCancelled, deadlinePassed, replied := [], false, false, false, false;
    }

    /** The service's reply block. `ownerAlive` is false when the session
        object is gone (the block holds it weakly): then nothing happens. */
    method OnReply(error: Option<NSError>, ownerAlive: bool)
      requires !replied
      modifies this
      ensures replied == ownerAlive && deadlinePassed == old(deadlinePassed)
      ensures timeoutCancelled == (old(timeoutCancelled) || ownerAlive)
      ensures resumes == old(resumes) + (if ownerAlive then [ReplyResumption(error)] else [])
      ensures trapped == (old(trapped) || (ownerAlive && old(resumes) != []))
    {
      if !ownerAlive {
        return;
      }
      replied := true;
      timeoutCancelled := true;
      if resumes != [] {
        trapped := true;
      }
      resumes := resumes + [ReplyResumption(error)];
    }

    /** The deadline: the work item throws the timeout error unless cancelled.
        It does not look at whether a reply already resumed the continuation. */
    method OnDeadline()
      requires !deadlinePassed
      modifies this
      ensures deadlinePassed && replied == old(replied) && timeoutCancelled == old(timeoutCancelled)
      ensures resumes == old(resumes) + (if timeoutCancelled then [] else [Threw(TimeoutError())])
      ensures trapped == (old(trapped) || (!timeoutCancelled && old(resumes) != []))
    {
      deadlinePassed := true;
      if !timeoutCancelled {
        if resumes != [] {
          trapped := true;
        }
        resumes := resumes + [Threw(TimeoutError())];
      }
    }
  }

  /** A reply before the deadline cancels the timeout: the call resumes exactly
      once, returning on a nil error and throwing the error otherwise. */
  method ReplyBeforeDeadline(error: Option<NSError>) returns (resumes: seq<Resumption>, trapped: bool)
    ensures |resumes| == 1 && !trapped
    ensures resumes[0].Returned? <==> error.None?
    ensures error.Some? ==> resumes[0] == Threw(error.value)
  {
    var call := new PendingCall(0, 0);
    call.OnReply(error, true);
    call.OnDeadline();
    resumes, trapped := call.resumes, call.trapped;
  }

  /** No reply by the deadline: the call throws code 4, "Operation timeout". */
  method DeadlineWithoutReply() returns (resumes: seq<Resumption>, trapped: bool)
    ensures resumes == [Threw(NSError("ImageUpscaler", 4, "Operation timeout"))] && !trapped
  {
    var call := new PendingCall(0, 0);
    call.OnDeadline();
    resumes, trapped := call.resumes, call.trapped;
  }

  /** A reply after the deadline finds nothing to stop it: the continuation,
      already resumed by the timeout, is resumed a second time, and the client
      traps. The call's outcome is the timeout error. */
  method ReplyAfterDeadline(error: Option<NSError>) returns (resumes: seq<Resumption>, trapped: bool)
    ensures |resumes| == 2 && trapped
    ensures resumes[0] == Threw(TimeoutError())
    ensures resumes[1].Returned? <==> error.None?
    ensures error.Some? ==> resumes[1] == Threw(error.value)
  {
    var call := new PendingCall(0, 0);
    call.OnDeadline();
    call.OnReply(error, true);
    resumes, trapped := call.resumes, call.trapped;
  }

  /** Whatever order the two events come in, the continuation is resumed at
      least once and at most twice, and twice exactly when the deadline came
      first; the second resumption is the reply's, and it traps. The call's
      outcome, the first resumption, is the timeout error when the deadline
      came first and the reply's otherwise. */
  method Race(error: Option<NSError>, deadlineFirst: bool) returns (resumes: seq<Resumption>, trapped: bool)
    ensures 1 <= |resumes| <= 2
    ensures |resumes| == 2 <==> deadlineFirst
    ensures trapped <==> deadlineFirst
    ensures resumes[0] == if deadlineFirst then Threw(TimeoutError()) else ReplyResumption(error)
    ensures resumes[|resumes| - 1] == ReplyResumption(error)
  {
    var call := new PendingCall(0, 0);
    if deadlineFirst {
      call.OnDeadline();
      call.OnReply(error, true);
    } else {
      call.OnReply(error, true);
      call.OnDeadline();
    }
    resumes, trapped := call.resumes, call.trapped;
  }

  /** A request whose connection is replaced while it runs never hears back:
      an interruption's reconnect invalidates the connection, the reply is
      dropped, and the timeout resumes the call once, without a trap. */
  method ReplyLostAfterReconnect(error: Option<NSError>) returns (resumes: seq<Resumption>, trapped: bool)
    ensures resumes == [Threw(TimeoutError())] && !trapped
  {
    var session := new ImageUpscaler();
    var thrown, call := session.Submit("in", "out", 2, true);
    session.OnInterrupt(0);
    session.OnReconnectTimerFire();
    call.OnDeadline();
    session.ReplyArrives(call, error);
    resumes, trapped := call.resumes, call.trapped;
  }

  /** A request whose worker exits is never answered: after an interruption
      the reply is dropped, even before the reconnect, and the timeout
      resumes the call once, without a trap. */
  method ReplyLostAfterInterrupt(error: Option<NSError>) returns (resumes: seq<Resumption>, trapped: bool)
    ensures resumes == [Threw(TimeoutError())] && !trapped
  {
    var session := new ImageUpscaler();
    var thrown, call := session.Submit("in", "out", 2, true);
    session.OnInterrupt(0);
    call.OnDeadline();
    session.ReplyArrives(call, error);
    resumes, trapped := call.resumes, call.trapped;
  }

  /** A request whose connection stays valid until the worker answers, after
      the deadline, makes the client trap. */
  method LateReplyOnLiveConnection(error: Option<NSError>) returns (resumes: seq<Resumption>, trapped: bool)
    ensures resumes == [Threw(TimeoutError()), ReplyResumption(error)] && trapped
  {
    var session := new ImageUpscaler();
    var thrown, call := session.Submit("in", "out", 2, true);
    call.OnDeadline();
    session.ReplyArrives(call, error);
    resumes, trapped := call.resumes, call.trapped;
  }

  /** The session object (`ImageUpscaler.shared`). */
  class ImageUpscaler {
    /** The current connection, if any. */
    var connection: Option<ConnId>
    /** The callback progress messages are forwarded to. */
    var progressCallback: Option<Callback>
    /** Set while `setupXPCConnection` runs. */
    var isReconnecting: bool
    /** Reconnect timers scheduled by `reconnectXPC` and not yet fired. */
    var pendingReconnects: nat
    /** Every connection created so far and its state. */
    var status: map<ConnId, ConnStatus>
    /** The identity the next connection gets. */
    var nextId: ConnId
    /** Everything the session has done to its connections, in order. */
    var log: seq<SessionEvent>
    /** Interruptions reported so far. Only the current connection can be
        interrupted, so a request whose connection is still live has lost
        its worker exactly when this grew after it was sent. */
    var interruptions: nat

    /** At most one connection is live, and it is the current one. */
    ghost predicate Valid()
      reads this
    {
      && (forall id :: id in status ==> id < nextId)
      && (connection.Some? ==> connection.value in status && status[connection.value] == Live)
      && (forall id :: id in status && status[id] == Live ==> connection == Some(id))
    }

    /** `init`, and `init?(coder:)` alike: the session connects at once. */
    constructor ()
      ensures Valid()
      ensures connection == Some(0) && status == map[0 := Live] && nextId == 1
      ensures !isReconnecting && pendingReconnects == 0 && progressCallback == None
      ensures log == [Created(0), Resumed(0)] && interruptions == 0
    {
      connection, progressCallback, isReconnecting, interruptions := None, None, false, 0;
      pendingReconnects, status, nextId, log := 0, map[], 0, [];
      new;
      Setup();
    }

    /** `setupXPCConnection`: skipped while a setup is under way; otherwise
        the old connection is invalidated and dropped, and a new one is
        created, stored and resumed. */
    method Setup()
      modifies this
      ensures old(isReconnecting) ==>
                && connection == old(connection) && status == old(status) && nextId == old(nextId)
                && log == old(log) && isReconnecting
      ensures !old(isReconnecting) ==>
                && connection == Some(old(nextId)) && nextId == old(nextId) + 1 && !isReconnecting
                && status == (match old(connection)
                              case None => old(status)
                              case Some(c) => old(status)[c := Dead(false)])[old(nextId) := Live]
                && log == old(log) + (match old(connection)
                                      case None => []
                                      case Some(c) => [Invalidated(c)])
                                   + [Created(old(nextId)), Resumed(old(nextId))]
      ensures pendingReconnects == old(pendingReconnects) && progressCallback == old(progressCallback)
      ensures interruptions == old(interruptions)
      ensures old(Valid()) ==> Valid()
    {
      if isReconnecting {
        return;
      }
      isReconnecting := true;
      if connection.Some? {
        var oldConnection := connection.value;
        log := log + [Invalidated(oldConnection)];
        status := status[oldConnection := Dead(false)];
        connection := None;
      }
      var newConnection := nextId;
      nextId := nextId + 1;
      status := status[newConnection := Live];
      log := log + [Created(newConnection)];
      connection := Some(newConnection);
      log := log + [Resumed(newConnection)];
      isReconnecting := false;
    }

    /** `reconnectXPC`: schedules a setup one second ahead unless a setup is
        under way. */
    method ReconnectXPC()
      modifies this
      ensures pendingReconnects == old(pendingReconnects) + (if isReconnecting then 0 else 1)
      ensures connection == old(connection) && status == old(status) && nextId == old(nextId)
      ensures log == old(log) && isReconnecting == old(isReconnecting)
      ensures progressCallback == old(progressCallback)
      ensures interruptions == old(interruptions)
    {
      if isReconnecting {
        return;
      }
      pendingReconnects := pendingReconnects + 1;
    }

    /** The interruption handler of a live connection: the worker has exited,
        taking any request in flight with it. It clears the flag before
        calling `reconnectXPC`, so the guard there never holds and a
        reconnect is always scheduled. */
    method OnInterrupt(conn: ConnId)
      requires conn in status && status[conn] == Live
      modifies this
      ensures pendingReconnects == old(pendingReconnects) + 1 && !isReconnecting
      ensures connection == old(connection) && status == old(status) && nextId == old(nextId)
      ensures log == old(log) && progressCallback == old(progressCallback)
      ensures interruptions == old(interruptions) + 1
    {
      interruptions := interruptions + 1;
      isReconnecting := false;
      ReconnectXPC();
    }

    /** The invalidation handler of an invalidated connection, run once. Like
        the interruption handler, it always schedules a reconnect. */
    method OnInvalidate(conn: ConnId)
      requires conn in status && status[conn] == Dead(false)
      modifies this
      ensures pendingReconnects == old(pendingReconnects) + 1 && !isReconnecting
      ensures status == old(status)[conn := Dead(true)]
      ensures connection == old(connection) && nextId == old(nextId)
      ensures log == old(log) && progressCallback == old(progressCallback)
      ensures interruptions == old(interruptions)
      ensures old(Valid()) ==> Valid()
    {
      status := status[conn := Dead(true)];
      isReconnecting := false;
      ReconnectXPC();
    }

    /** A reconnect timer fires: the block checks the flag again and runs
        setup only when no setup is under way. */
    method OnReconnectTimerFire()
      requires pendingReconnects > 0
      modifies this
      ensures pendingReconnects == old(pendingReconnects) - 1
      ensures old(isReconnecting) ==>
                && connection == old(connection) && status == old(status) && nextId == old(nextId)
                && log == old(log) && isReconnecting
      ensures !old(isReconnecting) ==>
                && connection == Some(old(nextId)) && nextId == old(nextId) + 1 && !isReconnecting
                && status == (match old(connection)
                              case None => old(status)
                              case Some(c) => old(status)[c := Dead(false)])[old(nextId) := Live]
                && log == old(log) + (match old(connection)
                                      case None => []
                                      case Some(c) => [Invalidated(c)])
                                   + [Created(old(nextId)), Resumed(old(nextId))]
      ensures progressCallback == old(progressCallback)
      ensures interruptions == old(interruptions)
      ensures old(Valid()) ==> Valid()
    {
      pendingReconnects := pendingReconnects - 1;
      if isReconnecting {
        return;
      }
      Setup();
    }

    /** `setProgressCallback`: the callback is always stored; `self` is
        registered as an observer only through a connection with a proxy. */
    method SetProgressCallback(callback: Callback, proxyAvailable: bool)
      modifies this
      ensures progressCallback == Some(callback)
      ensures log == old(log) + (if connection.Some? && proxyAvailable then [Sent(connection.value, AddObserver)] else [])
      ensures connection == old(connection) && status == old(status) && nextId == old(nextId)
      ensures isReconnecting == old(isReconnecting) && pendingReconnects == old(pendingReconnects)
    {
      progressCallback := Some(callback);
      if connection.Some? && proxyAvailable {
        log := log + [Sent(connection.value, AddObserver)];
      }
    }

    /** `upscaleImage`: throws code 2 without a connection and code 3 without
        a proxy, sending nothing; otherwise sends the request and returns the
        call now awaiting its reply and its deadline. */
    method Submit(inputPath: string, outputPath: string, scale: int, proxyAvailable: bool)
      returns (thrown: Option<NSError>, call: PendingCall?)
      modifies this
      ensures connection.None? ==> thrown == Some(NoConnectionError())
      ensures connection.Some? && !proxyAvailable ==> thrown == Some(NoProxyError())
      ensures thrown.None? <==> connection.Some? && proxyAvailable
      ensures thrown.Some? <==> call == null
      ensures thrown.Some? ==> log == old(log)
      ensures thrown.None? ==>
                && fresh(call) && call.conn == connection.value && call.interruptionsAtSend == interruptions
                && call.resumes == [] && !call.trapped && !call.timeoutCancelled
                && !call.deadlinePassed && !call.replied
                && log == old(log) + [Sent(connection.value, Upscale(inputPath, outputPath, scale))]
      ensures connection == old(connection) && status == old(status) && nextId == old(nextId)
      ensures isReconnecting == old(isReconnecting) && pendingReconnects == old(pendingReconnects)
      ensures progressCallback == old(progressCallback)
      ensures interruptions == old(interruptions)
    {
      if connection.None? {
        return Some(NoConnectionError()), null;
      }
      var conn := connection.value;
      if !proxyAvailable {
        return Some(NoProxyError()), null;
      }
      call := new PendingCall(conn, interruptions);
      log := log + [Sent(conn, Upscale(inputPath, outputPath, scale))];
      thrown := None;
    }

    /** The worker that received `call` can still answer it over the same
        connection: the connection is live and no interruption has come since
        the request was sent. */
    predicate Answerable(call: PendingCall)
      requires call.conn in status
      reads this
    {
      status[call.conn] == Live && interruptions == call.interruptionsAtSend
    }

    /** The service answers `call`. The reply travels back over the connection
        the request was sent on. Once that connection is invalidated, or its
        worker has exited, the transport drops the reply and the reply block
        never runs. */
    method ReplyArrives(call: PendingCall, error: Option<NSError>)
      requires call.conn in status && !call.replied
      modifies call
      ensures !Answerable(call) ==> call.resumes == old(call.resumes) && call.trapped == old(call.trapped)
                                    && !call.replied && call.timeoutCancelled == old(call.timeoutCancelled)
      ensures Answerable(call) ==>
                && call.replied && call.timeoutCancelled
                && call.resumes == old(call.resumes) + [ReplyResumption(error)]
                && call.trapped == (old(call.trapped) || old(call.resumes) != [])
      ensures call.deadlinePassed == old(call.deadlinePassed)
    {
      if Answerable(call) {
        call.OnReply(error, true);
      }
    }

    /** `deinit`: the observer is removed through the proxy before the
        connection is invalidated; the connection field is left as it was. */
    method Deinit(proxyAvailable: bool)
      modifies this
      ensures connection.None? ==> log == old(log) && status == old(status)
      ensures connection.Some? ==>
                && status == old(status)[connection.value := Dead(false)]
                && log == old(log) + (if proxyAvailable then [Sent(connection.value, RemoveObserver)] else [])
                                   + [Invalidated(connection.value)]
      ensures connection == old(connection) && nextId == old(nextId)
      ensures isReconnecting == old(isReconnecting) && pendingReconnects == old(pendingReconnects)
      ensures progressCallback == old(progressCallback)
      ensures interruptions == old(interruptions)
    {
      if connection.Some? && proxyAvailable {
        log := log + [Sent(connection.value, RemoveObserver)];
      }
      if connection.Some? {
        log := log + [Invalidated(connection.value)];
        status := status[connection.value := Dead(false)];
      }
    }

    /** A settled session whose previous connection still has its
        invalidation handler to run. */
    ghost predicate AwaitingOldHandler(previous: ConnId)
      reads this
    {
      && Valid() && !isReconnecting && pendingReconnects == 0 && connection.Some?
      && previous in status && status[previous] == Dead(false)
    }

    /** An interruption starts the cycle: the reconnect it schedules replaces
        the connection, and the replaced one's invalidation handler is pending. */
    method InterruptThenReconnect()
      requires Valid() && !isReconnecting && pendingReconnects == 0 && connection.Some?
      modifies this
      ensures AwaitingOldHandler(old(connection).value)
      ensures connection == Some(old(nextId))
    {
      OnInterrupt(connection.value);
      OnReconnectTimerFire();
    }

    /** The cycle never ends: the old connection's invalidation handler
        schedules a reconnect, which invalidates the current connection, whose
        handler is then pending in turn. Every turn creates a new connection. */
    method ReconnectCycle(previous: ConnId)
      requires AwaitingOldHandler(previous)
      modifies this
      ensures AwaitingOldHandler(old(connection).value)
      ensures connection == Some(old(nextId)) && connection != old(connection)
      ensures log == old(log) + [Invalidated(old(connection).value), Created(old(nextId)), Resumed(old(nextId))]
    {
      OnInvalidate(previous);
      OnReconnectTimerFire();
    }
  }
}

=== FILE: common.dfy ===
/** Values shared by the worker-side service and the client-side session. */
module Common {

  /** Swift's optional: `nil` is None. */
  datatype Option<+T> = None | Some(value: T)

  /** An NSError as the core builds and passes it on: a domain, an integer
      code and the localized description stored under NSLocalizedDescriptionKey. */
  datatype NSError = NSError(domain: string, code: int, description: string)

  /** One byte of a pipe's output. */
  newtype byte = x: int | 0 <= x < 256

  /** The identity of an observer object (an NSObject used as a dictionary key). */
  type ObserverId = nat

  /** A progress callback, known only by its identity: the model records which
      callback is invoked with which message, not what the callback then does. */
  datatype Callback = Callback(tag: nat)
}

=== FILE: decimal.dfy ===
/** Swift's `String(scale)` for an `Int`, and the parser that undoes it. */
module Decimal {
  import opened Common

  predicate IsDigit(c: char) { '0' <= c <= '9' }

  predicate AllDigits(s: string) { forall i :: 0 <= i < |s| ==> IsDigit(s[i]) }

  function DigitChar(d: nat): (c: char)
    requires d < 10
    ensures IsDigit(c) && c as int - '0' as int == d
  {
    ('0' as int + d) as char
  }

  /** Decimal digits of `n`, most significant first, with no leading zero. */
  function NatToString(n: nat): (s: string)
    ensures |s| > 0 && AllDigits(s)
    ensures s[0] == '0' ==> n == 0
    decreases n
  {
    if n < 10 then [DigitChar(n)] else NatToString(n / 10) + [DigitChar(n % 10)]
  }

  /** `String(i)` for a Swift `Int`: a minus sign for negative values, then the digits. */
  function IntToString(i: int): (s: string)
  {
    if i < 0 then "-" + NatToString(-i) else NatToString(i)
  }

  function DigitsValue(s: string): nat
    requires AllDigits(s)
  {
    if s == [] then 0 else DigitsValue(s[..|s| - 1]) * 10 + (s[|s| - 1] as int - '0' as int)
  }

  /** Reads a decimal integer back, as `Int(s)` would: an optional minus sign and at least one digit. */
  function ParseInt(s: string): Option<int>
  {
    if |s| > 1 && s[0] == '-' && AllDigits(s[1..]) then Some(-(DigitsValue(s[1..]) as int))
    else if |s| > 0 && AllDigits(s) then Some(DigitsValue(s))
    else None
  }

  lemma {:induction false} NatToStringRoundTrip(n: nat)
    ensures DigitsValue(NatToString(n)) == n
    decreases n
  {
    if n >= 10 {
      NatToStringRoundTrip(n / 10);
      var s := NatToString(n);
      assert s[..|s| - 1] == NatToString(n / 10);
    }
  }

  /** The decimal text of any integer reads back as that integer. */
  lemma IntToStringRoundTrip(i: int)
    ensures ParseInt(IntToString(i)) == Some(i)
  {
    var s := IntToString(i);
    if i < 0 {
      NatToStringRoundTrip(-i);
      assert s[1..] == NatToString(-i);
    } else {
      NatToStringRoundTrip(i);
      assert s[0] != '-';
    }
  }

  /** Distinct integers have distinct decimal texts. */
  lemma IntToStringInjective(i: int, j: int)
    requires IntToString(i) == IntToString(j)
    ensures i == j
  {
    IntToStringRoundTrip(i);
    IntToStringRoundTrip(j);
  }
}

=== FILE: progress.dfy ===
/** How the worker turns the external tool's output into progress messages
    (the readability handler of ImageUpscalerService.upscaleImage). */
module Progress {
  import opened Common
  import opened Tokens

  /** Text put in front of every progress token ("Processing: "). */
  const ProgressPrefix: string := "Обработка: "

  /** A progress message: the prefix, then one non-empty space-free token holding a '%'. */
  predicate IsProgressMessage(m: string)
  {
    && |m| > |ProgressPrefix|
    && m[..|ProgressPrefix|] == ProgressPrefix
    && ' ' !in m[|ProgressPrefix|..]
    && '%' in m[|ProgressPrefix|..]
  }

  /** `tok` is the first space-separated piece of `line` that holds a '%'. */
  predicate IsFirstPercentToken(line: string, tok: string)
  {
    var ps := Split(line, ' ');
    exists k :: 0 <= k < |ps| && ps[k] == tok && '%' in tok && forall j :: 0 <= j < k ==> '%' !in ps[j]
  }

  /** What one line of output yields: nothing unless it holds a '%'; otherwise
      the prefix and the first space-separated piece that holds a '%'. */
  function LineMessage(line: string): Option<string>
  {
    if '%' in line then
      match FirstContaining(Split(line, ' '), '%')
      case Some(tok) => Some(ProgressPrefix + tok)
      case None => None
    else None
  }

  /** A line yields a message exactly when it holds a '%'; the token always
      exists, is the first one with a '%', and holds no space. */
  lemma LineMessageSpec(line: string)
    ensures LineMessage(line).Some? <==> '%' in line
    ensures LineMessage(line).Some? ==> IsProgressMessage(LineMessage(line).value)
    ensures LineMessage(line).Some? ==>
              var tok := LineMessage(line).value[|ProgressPrefix|..];
              LineMessage(line).value == ProgressPrefix + tok && IsFirstPercentToken(line, tok)
  {
    if '%' in line {
      SplitCovers(line, ' ', '%');
      var tok := FirstContaining(Split(line, ' '), '%').value;
      var m := ProgressPrefix + tok;
      assert m[..|ProgressPrefix|] == ProgressPrefix;
      assert m[|ProgressPrefix|..] == tok;
      assert |tok| > 0 && ' ' !in tok by {
        var k :| 0 <= k < |Split(line, ' ')| && Split(line, ' ')[k] == tok;
      }
    }
  }

  /** How many of the lines hold a '%'. */
  function PercentLines(lines: seq<string>): nat
  {
    if lines == [] then 0 else (if '%' in lines[0] then 1 else 0) + PercentLines(lines[1..])
  }

  /** The messages a decoded chunk's lines yield, in line order. */
  function LinesMessages(lines: seq<string>): (r: seq<string>)
  {
    if lines == [] then []
    else
      (match LineMessage(lines[0]) case Some(m) => [m] case None => []) + LinesMessages(lines[1..])
  }

  /** One message per line holding a '%' and none for any other line, so
      messages never outnumber lines; each is a well-formed progress message. */
  lemma {:induction false} LinesMessagesSpec(lines: seq<string>)
    ensures |LinesMessages(lines)| == PercentLines(lines) <= |lines|
    ensures forall k :: 0 <= k < |LinesMessages(lines)| ==> IsProgressMessage(LinesMessages(lines)[k])
  {
    if lines != [] {
      LineMessageSpec(lines[0]);
      LinesMessagesSpec(lines[1..]);
    }
  }

  /** What the handler publishes for one non-empty chunk: nothing if the bytes
      are not valid UTF-8, else the messages of its '\n'-separated lines. */
  function ChunkMessages(chunk: seq<byte>, utf8: seq<byte> -> Option<string>): seq<string>
  {
    match utf8(chunk)
    case None => []
    case Some(text) => LinesMessages(Split(text, '\n'))
  }

  lemma ChunkMessagesSpec(chunk: seq<byte>, utf8: seq<byte> -> Option<string>)
    ensures utf8(chunk).None? ==> ChunkMessages(chunk, utf8) == []
    ensures utf8(chunk).Some? ==>
              |ChunkMessages(chunk, utf8)| == PercentLines(Split(utf8(chunk).value, '\n'))
                                            <= |Split(utf8(chunk).value, '\n')|
    ensures forall k :: 0 <= k < |ChunkMessages(chunk, utf8)| ==> IsProgressMessage(ChunkMessages(chunk, utf8)[k])
  {
    if utf8(chunk).Some? {
      LinesMessagesSpec(Split(utf8(chunk).value, '\n'));
    }
  }

  /** Some chunk is a zero-byte read, after which the handler is detached. */
  predicate Detaches(chunks: seq<seq<byte>>)
  {
    chunks != [] && (|chunks[0]| == 0 || Detaches(chunks[1..]))
  }

  /** Every message the handler publishes while it stays installed: chunk by
      chunk, up to the first zero-byte read. */
  function Delivered(chunks: seq<seq<byte>>, utf8: seq<byte> -> Option<string>): seq<string>
  {
    if chunks == [] || |chunks[0]| == 0 then []
    else ChunkMessages(chunks[0], utf8) + Delivered(chunks[1..], utf8)
  }

  /** Whatever follows a zero-byte read is never published. */
  lemma {:induction false} NothingAfterDetach(before: seq<seq<byte>>, after: seq<seq<byte>>, utf8: seq<byte> -> Option<string>)
    ensures Delivered(before + [[]] + after, utf8) == Delivered(before + [[]], utf8)
  {
    if before != [] {
      assert (before + [[]] + after)[1..] == before[1..] + [[]] + after;
      assert (before + [[]])[1..] == before[1..] + [[]];
      NothingAfterDetach(before[1..], after, utf8);
    }
  }

  /** Every published message is a well-formed progress message. */
  lemma {:induction false} DeliveredWellFormed(chunks: seq<seq<byte>>, utf8: seq<byte> -> Option<string>)
    ensures forall k :: 0 <= k < |Delivered(chunks, utf8)| ==> IsProgressMessage(Delivered(chunks, utf8)[k])
  {
    if chunks != [] && |chunks[0]| != 0 {
      ChunkMessagesSpec(chunks[0], utf8);
      DeliveredWellFormed(chunks[1..], utf8);
    }
  }
}

=== FILE: service.dfy ===
/** The worker side: ImageUpscalerService, its observer registry, its
    preflight checks, the external process it launches and the single reply
    it sends. Everything the service does that another party can see is
    recorded, in order, in its `trace`. */
module Service {
  import opened Common
  import opened Decimal
  import opened Tokens
  import opened Progress

  const Domain: string := "ImageUpscalerService"
  const BinaryName: string := "waifu2x-ncnn-vulkan"
  /** The model files that must sit in the models directory, checked in this order. */
  const ModelFiles: seq<string> := ["noise2_scale2.0x_model.param", "noise2_scale2.0x_model.bin"]

  /** Swift's `Int` is 64 bits wide. */
  const IntMin: int := -0x8000_0000_0000_0000
  const IntMax: int := 0x7fff_ffff_ffff_ffff
  predicate IsInt(x: int) { IntMin <= x <= IntMax }

  datatype Request = Request(inputPath: string, outputPath: string, scale: int)

  /** How `process.run()` and `waitUntilExit()` turn out. */
  datatype LaunchOutcome = LaunchFailed(error: NSError) | Exited(status: int)

  /** What the service meets when it handles a request: the bundle location,
      the temporary directory, the paths that exist, how the process turns
      out, the chunks its readability handler receives before the process
      exits, and the bytes still unread after it has exited. */
  datatype Environment = Environment(
    bundlePath: string,
    temporaryDirectory: string,
    files: set<string>,
    launch: LaunchOutcome,
    chunks: seq<seq<byte>>,
    remaining: seq<byte>)

  /** What one pipe can produce. A zero-byte read means end of file: the
      handler has then consumed everything the tool wrote, so nothing is left
      for `readDataToEndOfFile()`. In every case `remaining` holds only bytes
      the handler never read. */
  predicate PipeConsistent(env: Environment)
  {
    Detaches(env.chunks) ==> env.remaining == []
  }

  /** The external process as it is started: executable, working directory, arguments. */
  datatype Invocation = Invocation(executable: string, directory: string, arguments: seq<string>)

  /** What the service does that others can observe. */
  datatype Action =
    | Deliver(observer: ObserverId, callback: Callback, message: string)  // a progress callback invoked
    | Run(invocation: Invocation)                                          // `process.run()` attempted
    | ClearHandler                                                         // readability handler set to nil
    | Reply(error: Option<NSError>)                                        // the request's reply block called

  function ResourcesPath(bundlePath: string): string { bundlePath + "/Contents/Resources" }

  function BinaryPath(bundlePath: string): string { ResourcesPath(bundlePath) + "/" + BinaryName }

  /** `appendingPathComponent` for a directory path that does not end in '/'. */
  function AppendingPathComponent(dir: string, name: string): string { dir + "/" + name }

  /** The first of `names` that is missing from `dir`, if any. */
  function FirstMissingModel(files: set<string>, dir: string, names: seq<string>): (r: Option<string>)
    ensures r.None? <==> forall k :: 0 <= k < |names| ==> AppendingPathComponent(dir, names[k]) in files
    ensures forall k :: 0 <= k < |names| && AppendingPathComponent(dir, names[k]) !in files
                        && (forall j :: 0 <= j < k ==> AppendingPathComponent(dir, names[j]) in files)
                        ==> r == Some(names[k])
  {
    if names == [] then None
    else if AppendingPathComponent(dir, names[0]) !in files then Some(names[0])
    else
      var r := FirstMissingModel(files, dir, names[1..]);
      assert forall k :: 1 <= k < |names| ==> names[k] == names[1..][k - 1];
      r
  }

  /** The error the checks before launch reply with, or None when all pass. */
  function Preflight(files: set<string>, bundlePath: string): Option<NSError>
  {
    if ResourcesPath(bundlePath) !in files then
      Some(NSError(Domain, 1, "Resources directory not found"))
    else if BinaryPath(bundlePath) !in files then
      Some(NSError(Domain, 2, "waifu2x-ncnn-vulkan not found"))
    else
      match FirstMissingModel(files, ResourcesPath(bundlePath), ModelFiles)
      case Some(name) => Some(NSError(Domain, 4, "Model file not found: " + name))
      case None => None
  }

  /** Every path the service needs before it launches anything. */
  function RequiredPaths(bundlePath: string): set<string>
  {
    {ResourcesPath(bundlePath), BinaryPath(bundlePath)}
    + set k | 0 <= k < |ModelFiles| :: AppendingPathComponent(ResourcesPath(bundlePath), ModelFiles[k])
  }

  /** The checks pass exactly when every required path exists; otherwise the
      code says which check failed first: 1 for the resources directory, 2 for
      the binary, 4 for a model file, naming the `.param` file before the `.bin`. */
  lemma PreflightSpec(files: set<string>, bundlePath: string)
    ensures Preflight(files, bundlePath).None? <==> RequiredPaths(bundlePath) <= files
    ensures Preflight(files, bundlePath).Some? ==>
              var e := Preflight(files, bundlePath).value;
              && e.domain == Domain
              && (e.code == 1 <==> ResourcesPath(bundlePath) !in files)
              && (e.code == 2 <==> ResourcesPath(bundlePath) in files && BinaryPath(bundlePath) !in files)
              && (e.code == 4 <==> ResourcesPath(bundlePath) in files && BinaryPath(bundlePath) in files)
    ensures var res := ResourcesPath(bundlePath);
            res in files && BinaryPath(bundlePath) in files ==>
              && (AppendingPathComponent(res, ModelFiles[0]) !in files ==>
                    Preflight(files, bundlePath) == Some(NSError(Domain, 4, "Model file not found: " + ModelFiles[0])))
              && (AppendingPathComponent(res, ModelFiles[0]) in files && AppendingPathComponent(res, ModelFiles[1]) !in files ==>
                    Preflight(files, bundlePath) == Some(NSError(Domain, 4, "Model file not found: " + ModelFiles[1])))
  {
    var res := ResourcesPath(bundlePath);
    var models := set k | 0 <= k < |ModelFiles| :: AppendingPathComponent(res, ModelFiles[k]);
    assert models == {AppendingPathComponent(res, ModelFiles[0]), AppendingPathComponent(res, ModelFiles[1])} by {
      assert forall p :: p in models ==> p == AppendingPathComponent(res, ModelFiles[0]) || p == AppendingPathComponent(res, ModelFiles[1]);
    }
  }

  /** The argument list handed to the external tool (`-g 0` appended because
      the Metal check always passes on the supported systems). */
  function Arguments(request: Request): seq<string>
  {
    ["-i", request.inputPath, "-o", request.outputPath, "-n", "2", "-s", IntToString(request.scale),
     "-m", "models-cunet", "-v"] + ["-g", "0"]
  }

  /** The process the service starts: the binary, run from the resources directory. */
  function Launched(request: Request, bundlePath: string): Invocation
  {
    Invocation(BinaryPath(bundlePath), ResourcesPath(bundlePath), Arguments(request))
  }

  /** The input and output paths and the scale reach the tool in their
      places, and the argument after `-s` reads back as the requested scale. */
  lemma ArgumentsSpec(request: Request)
    ensures var a := Arguments(request);
            && |a| == 13
            && a[0] == "-i" && a[1] == request.inputPath
            && a[2] == "-o" && a[3] == request.outputPath
            && a[4..6] == ["-n", "2"]
            && a[6] == "-s" && ParseInt(a[7]) == Some(request.scale)
            && a[8] == "-m" && a[9] == "models-cunet" && a[10] == "-v"
            && a[11..] == ["-g", "0"]
  {
    IntToStringRoundTrip(request.scale);
  }

  /** For the scales the tool accepts, the `-s` argument is the single digit. */
  lemma ScaleArgumentVerbatim(request: Request)
    requires 2 <= request.scale <= 4
    ensures Arguments(request)[7] == ["2", "3", "4"][request.scale - 2]
  {
  }

  /** The reply once the process has exited: success on status 0, otherwise an
      error whose code is the status and whose text is the unread output. */
  function ExitReply(status: int, remaining: seq<byte>, utf8: seq<byte> -> Option<string>): (r: Option<NSError>)
    ensures r.None? <==> status == 0
    ensures r.Some? ==> r.value.domain == Domain && r.value.code == status
    ensures r.Some? && utf8(remaining).None? ==> r.value.description == "Unknown error"
    ensures r.Some? && utf8(remaining).Some? ==> r.value.description == utf8(remaining).value
  {
    if status != 0 then
      var output := match utf8(remaining) case Some(text) => text case None => "Unknown error";
      Some(NSError(Domain, status, output))
    else None
  }

  /** The one reply a request gets. */
  function ExpectedReply(env: Environment, utf8: seq<byte> -> Option<string>): Option<NSError>
  {
    match Preflight(env.files, env.bundlePath)
    case Some(e) => Some(e)
    case None =>
      match env.launch
      case LaunchFailed(e) => Some(e)
      case Exited(status) => ExitReply(status, env.remaining, utf8)
  }

  /** When the handler has seen end of file, a failed run's error text is
      the decoding of no bytes: the tool's output went to the handler, not
      to the reply. */
  lemma ErrorTextAfterEndOfFile(env: Environment, utf8: seq<byte> -> Option<string>)
    requires Preflight(env.files, env.bundlePath).None?
    requires env.launch.Exited? && env.launch.status != 0
    requires Detaches(env.chunks) && PipeConsistent(env) && utf8([]) == Some("")
    ensures ExpectedReply(env, utf8) == Some(NSError(Domain, env.launch.status, ""))
  {
    assert env.remaining == [];
  }

  // ---------------------------------------------------------------------------
  // Broadcasts

  /** Every action of `d` invokes, with `m`, the callback `obs` registers
      for the action's observer. */
  predicate AllDeliver(obs: map<ObserverId, Callback>, m: string, d: seq<Action>)
  {
    d == [] ||
      (&& d[0].Deliver? && d[0].observer in obs && d[0].callback == obs[d[0].observer]
       && d[0].message == m && AllDeliver(obs, m, d[1..]))
  }

  /** The observers whose callbacks `d` invokes. */
  function Recipients(d: seq<Action>): set<ObserverId>
  {
    if d == [] then {} else (if d[0].Deliver? then {d[0].observer} else {}) + Recipients(d[1..])
  }

  /** `d` invokes every callback registered in `obs` with `m`, and nothing
      else; as it has no more actions than there are observers, it invokes
      each callback exactly once. */
  predicate IsBroadcast(obs: map<ObserverId, Callback>, m: string, d: seq<Action>)
  {
    AllDeliver(obs, m, d) && Recipients(d) == obs.Keys && |d| == |obs|
  }

  /** `d` is one broadcast per message of `msgs`, in order. */
  predicate Broadcasts(obs: map<ObserverId, Callback>, msgs: seq<string>, d: seq<Action>)
    decreases |msgs|
  {
    if msgs == [] then d == []
    else
      && |obs| <= |d|
      && IsBroadcast(obs, msgs[|msgs| - 1], d[|d| - |obs|..])
      && Broadcasts(obs, msgs[..|msgs| - 1], d[..|d| - |obs|])
  }

  lemma BroadcastsSingle(obs: map<ObserverId, Callback>, m: string, e: seq<Action>)
    requires IsBroadcast(obs, m, e)
    ensures Broadcasts(obs, [m], e)
  {
    assert [m][..0] == [];
    assert e[..|e| - |obs|] == [];
    assert e[|e| - |obs|..] == e;
  }

  /** A non-empty run of broadcasts is a shorter run followed by one
      broadcast of its last message. */
  lemma BroadcastsLast(obs: map<ObserverId, Callback>, msgs: seq<string>, d: seq<Action>)
      returns (init: seq<string>, m: string, front: seq<Action>, back: seq<Action>)
    requires Broadcasts(obs, msgs, d) && msgs != []
    ensures msgs == init + [m] && d == front + back
    ensures Broadcasts(obs, init, front) && IsBroadcast(obs, m, back)
    ensures |init| < |msgs|
  {
    var k := |d| - |obs|;
    init, m, front, back := msgs[..|msgs| - 1], msgs[|msgs| - 1], d[..k], d[k..];
  }

  /** Regrouping after a split of `b`, over sequences kept abstract. */
  lemma AppendAssoc<T>(a: seq<T>, b1: seq<T>, b2: seq<T>, b: seq<T>)
    requires b == b1 + b2
    ensures a + b1 + b2 == a + b
  {
  }

  /** Rewriting `Broadcasts` by equal arguments without unfolding it. */
  lemma BroadcastsSame(obs: map<ObserverId, Callback>, msgs: seq<string>, d: seq<Action>,
                       msgs': seq<string>, d': seq<Action>)
    requires Broadcasts(obs, msgs, d) && msgs == msgs' && d == d'
    ensures Broadcasts(obs, msgs', d')
  {
  }

  /** One more broadcast extends a run of broadcasts by its message. */
  lemma BroadcastsSnoc(obs: map<ObserverId, Callback>, msgs: seq<string>, d: seq<Action>, m: string, e: seq<Action>)
    requires Broadcasts(obs, msgs, d) && IsBroadcast(obs, m, e)
    ensures Broadcasts(obs, msgs + [m], d + e)
  {
    var n := |d + e| - |obs|;
    assert (msgs + [m])[..|msgs|] == msgs;
    assert (d + e)[n..] == e && (d + e)[..n] == d;
  }

  lemma {:induction false} BroadcastsAppend(obs: map<ObserverId, Callback>, a: seq<string>, d: seq<Action>,
                                            b: seq<string>, e: seq<Action>)
    requires Broadcasts(obs, a, d) && Broadcasts(obs, b, e)
    ensures Broadcasts(obs, a + b, d + e)
    decreases |b|
  {
    if b == [] {
      assert a + b == a && d + e == d;
      BroadcastsSame(obs, a, d, a + b, d + e);
    } else {
      var b', m, e', last := BroadcastsLast(obs, b, e);
      BroadcastsAppend(obs, a, d, b', e');
      BroadcastsSnoc(obs, a + b', d + e', m, last);
      AppendAssoc(a, b', [m], b);
      AppendAssoc(d, e', last, e);
      BroadcastsSame(obs, a + b' + [m], d + e' + last, a + b, d + e);
    }
  }

  /** The messages observer `o` receives, in order. */
  function ReceivedBy(t: seq<Action>, o: ObserverId): seq<string>
  {
    if t == [] then [] else Heard(t[0], o) + ReceivedBy(t[1..], o)
  }

  /** The message one action gives observer `o`, if any. */
  function Heard(x: Action, o: ObserverId): seq<string>
  {
    if x.Deliver? && x.observer == o then [x.message] else []
  }

  lemma {:induction false} ReceivedByAppend(a: seq<Action>, b: seq<Action>, o: ObserverId)
    ensures ReceivedBy(a + b, o) == ReceivedBy(a, o) + ReceivedBy(b, o)
  {
    if a == [] {
      assert a + b == b;
    } else {
      var h, r, rb := Heard(a[0], o), ReceivedBy(a[1..], o), ReceivedBy(b, o);
      assert ReceivedBy(a + b, o) == h + ReceivedBy(a[1..] + b, o) by {
        assert (a + b)[0] == a[0] && (a + b)[1..] == a[1..] + b;
      }
      ReceivedByAppend(a[1..], b, o);
      assert h + (r + rb) == (h + r) + rb;
    }
  }

  lemma {:induction false} RecipientsBound(d: seq<Action>)
    ensures |Recipients(d)| <= |d|
  {
    if d != [] {
      RecipientsBound(d[1..]);
    }
  }

  /** When `d` reaches as many observers as it has actions, each of them
      receives `m` once. */
  lemma {:induction false} ReceivedOnce(obs: map<ObserverId, Callback>, m: string, d: seq<Action>, o: ObserverId)
    requires AllDeliver(obs, m, d) && |Recipients(d)| == |d|
    ensures ReceivedBy(d, o) == if o in Recipients(d) then [m] else []
  {
    if d != [] {
      var rest := Recipients(d[1..]);
      RecipientsBound(d[1..]);
      assert Recipients(d) == {d[0].observer} + rest;
      assert d[0].observer !in rest;
      ReceivedOnce(obs, m, d[1..], o);
    }
  }

  /** In a broadcast each registered observer receives the message once and
      an unregistered one receives nothing. */
  lemma BroadcastReceived(obs: map<ObserverId, Callback>, m: string, d: seq<Action>, o: ObserverId)
    requires IsBroadcast(obs, m, d)
    ensures ReceivedBy(d, o) == if o in obs then [m] else []
  {
    assert |obs.Keys| == |obs|;
    ReceivedOnce(obs, m, d, o);
  }

  /** Across a run of broadcasts each registered observer receives every
      message, once each and in order; an unregistered observer receives none. */
  lemma {:induction false} BroadcastsReceived(obs: map<ObserverId, Callback>, msgs: seq<string>, d: seq<Action>, o: ObserverId)
    requires Broadcasts(obs, msgs, d)
    ensures ReceivedBy(d, o) == if o in obs then msgs else []
    decreases |msgs|
  {
    if msgs != [] {
      var init, m, front, back := BroadcastsLast(obs, msgs, d);
      BroadcastsReceived(obs, init, front, o);
      BroadcastReceived(obs, m, back, o);
      ReceivedByAppend(front, back, o);
    }
  }

  // ---------------------------------------------------------------------------
  // One request

  /** The actions of one `upscaleImage` call. A failed check replies at once;
      otherwise the process is started, whatever it publishes while it runs
      comes next, and then the handler is cleared and the reply sent. */
  predicate RequestTrace(obs: map<ObserverId, Callback>, request: Request, env: Environment,
                         utf8: seq<byte> -> Option<string>, t: seq<Action>)
  {
    if Preflight(env.files, env.bundlePath).Some? then
      t == [Reply(ExpectedReply(env, utf8))]
    else
      && |t| >= 3
      && t[0] == Run(Launched(request, env.bundlePath))
      && t[|t| - 2..] == [ClearHandler, Reply(ExpectedReply(env, utf8))]
      && WhileRunning(obs, env, utf8, t[1..|t| - 2])
  }

  /** What happens between the start of the process and its exit: nothing if
      it failed to start; otherwise what the readability handler does. */
  predicate WhileRunning(obs: map<ObserverId, Callback>, env: Environment,
                         utf8: seq<byte> -> Option<string>, body: seq<Action>)
  {
    match env.launch
    case LaunchFailed(_) => body == []
    case Exited(_) => HandlerActions(obs, Delivered(env.chunks, utf8), Detaches(env.chunks), body)
  }

  /** One broadcast per published message, in order, followed by the
      handler's own detachment if a zero-byte read came. */
  predicate HandlerActions(obs: map<ObserverId, Callback>, msgs: seq<string>, detached: bool, body: seq<Action>)
  {
    if detached then
      |body| >= 1 && body[|body| - 1] == ClearHandler && Broadcasts(obs, msgs, body[..|body| - 1])
    else
      Broadcasts(obs, msgs, body)
  }

  function Replies(t: seq<Action>): nat
  {
    if t == [] then 0 else (if t[0].Reply? then 1 else 0) + Replies(t[1..])
  }

  function Runs(t: seq<Action>): nat
  {
    if t == [] then 0 else (if t[0].Run? then 1 else 0) + Runs(t[1..])
  }

  lemma {:induction false} CountsAppend(a: seq<Action>, b: seq<Action>)
    ensures Replies(a + b) == Replies(a) + Replies(b)
    ensures Runs(a + b) == Runs(a) + Runs(b)
  {
    if a == [] {
      assert a + b == b;
    } else {
      CountsAppend(a[1..], b);
      assert (a + b)[1..] == a[1..] + b;
    }
  }

  lemma {:induction false} DeliveriesCountNothing(obs: map<ObserverId, Callback>, m: string, d: seq<Action>)
    requires AllDeliver(obs, m, d)
    ensures Replies(d) == 0 && Runs(d) == 0
  {
    if d != [] {
      DeliveriesCountNothing(obs, m, d[1..]);
    }
  }

  lemma {:induction false} BroadcastsCountNothing(obs: map<ObserverId, Callback>, msgs: seq<string>, d: seq<Action>)
    requires Broadcasts(obs, msgs, d)
    ensures Replies(d) == 0 && Runs(d) == 0
    decreases |msgs|
  {
    if msgs != [] {
      var init, m, front, back := BroadcastsLast(obs, msgs, d);
      BroadcastsCountNothing(obs, init, front);
      DeliveriesCountNothing(obs, m, back);
      CountsAppend(front, back);
    }
  }

  lemma HandlerActionsCounts(obs: map<ObserverId, Callback>, msgs: seq<string>, detached: bool, body: seq<Action>)
    requires HandlerActions(obs, msgs, detached, body)
    ensures Replies(body) == 0 && Runs(body) == 0
  {
    if detached {
      var b := body[..|body| - 1];
      BroadcastsCountNothing(obs, msgs, b);
      assert body == b + [ClearHandler];
      CountsAppend(b, [ClearHandler]);
    } else {
      BroadcastsCountNothing(obs, msgs, body);
    }
  }

  lemma WhileRunningCounts(obs: map<ObserverId, Callback>, env: Environment,
                           utf8: seq<byte> -> Option<string>, body: seq<Action>)
    requires WhileRunning(obs, env, utf8, body)
    ensures Replies(body) == 0 && Runs(body) == 0
  {
    if env.launch.Exited? {
      HandlerActionsCounts(obs, Delivered(env.chunks, utf8), Detaches(env.chunks), body);
    }
  }

  lemma LaunchedCounts(t: seq<Action>, body: seq<Action>)
    requires |t| >= 3 && t[0].Run? && t[|t| - 2] == ClearHandler && t[|t| - 1].Reply?
    requires body == t[1..|t| - 2] && Replies(body) == 0 && Runs(body) == 0
    ensures Replies(t) == 1 && Runs(t) == 1
  {
    var tail := t[|t| - 2..];
    assert t == [t[0]] + body + tail;
    CountsAppend([t[0]] + body, tail);
    CountsAppend([t[0]], body);
    assert [t[0]][1..] == [] && tail[1..][1..] == [];
    assert Replies([t[0]]) == 0 && Runs([t[0]]) == 1;
    assert Replies(tail) == 1 && Runs(tail) == 0;
  }

  /** Every request is answered exactly once, by its last action, with the
      expected reply. `process.run()` is called exactly once when all checks
      pass, as the request's first action, whether or not the launch then
      succeeds, and never when a check fails; when it is called, the
      readability handler is cleared right before the reply. */
  lemma RequestTraceShape(obs: map<ObserverId, Callback>, request: Request, env: Environment,
                          utf8: seq<byte> -> Option<string>, t: seq<Action>)
    requires RequestTrace(obs, request, env, utf8, t)
    ensures |t| > 0 && t[|t| - 1] == Reply(ExpectedReply(env, utf8))
    ensures Replies(t) == 1
    ensures Runs(t) == (if Preflight(env.files, env.bundlePath).None? then 1 else 0)
    ensures Preflight(env.files, env.bundlePath).None? ==>
              |t| >= 3 && t[0] == Run(Launched(request, env.bundlePath)) && t[|t| - 2] == ClearHandler
  {
    if Preflight(env.files, env.bundlePath).None? {
      var body := t[1..|t| - 2];
      WhileRunningCounts(obs, env, utf8, body);
      assert t[|t| - 2] == ClearHandler && t[|t| - 1].Reply?;
      LaunchedCounts(t, body);
    }
  }

  lemma {:induction false} NoDeliveryIn(t: seq<Action>, o: ObserverId)
    requires forall i :: 0 <= i < |t| ==> !t[i].Deliver?
    ensures ReceivedBy(t, o) == []
  {
    if t != [] {
      NoDeliveryIn(t[1..], o);
    }
  }

  lemma HandlerActionsReceived(obs: map<ObserverId, Callback>, msgs: seq<string>, detached: bool,
                               body: seq<Action>, o: ObserverId)
    requires HandlerActions(obs, msgs, detached, body)
    ensures ReceivedBy(body, o) == if o in obs then msgs else []
  {
    var b := if detached then body[..|body| - 1] else body;
    BroadcastsReceived(obs, msgs, b, o);
    if detached {
      assert body == b + [ClearHandler];
      ReceivedByAppend(b, [ClearHandler], o);
      NoDeliveryIn([ClearHandler], o);
    }
  }

  lemma WhileRunningReceived(obs: map<ObserverId, Callback>, env: Environment,
                             utf8: seq<byte> -> Option<string>, body: seq<Action>, o: ObserverId)
    requires WhileRunning(obs, env, utf8, body)
    ensures ReceivedBy(body, o) == if env.launch.Exited? && o in obs then Delivered(env.chunks, utf8) else []
  {
    if env.launch.Exited? {
      HandlerActionsReceived(obs, Delivered(env.chunks, utf8), Detaches(env.chunks), body, o);
    }
  }

  /** Only the middle of `t` can deliver when its first action and last two do not. */
  lemma ReceivedInside(t: seq<Action>, o: ObserverId)
    requires |t| >= 3 && !t[0].Deliver? && !t[|t| - 2].Deliver? && !t[|t| - 1].Deliver?
    ensures ReceivedBy(t, o) == ReceivedBy(t[1..|t| - 2], o)
  {
    var body := t[1..|t| - 2];
    assert t == [t[0]] + body + t[|t| - 2..];
    ReceivedByAppend([t[0]] + body, t[|t| - 2..], o);
    ReceivedByAppend([t[0]], body, o);
    NoDeliveryIn([t[0]], o);
    NoDeliveryIn(t[|t| - 2..], o);
  }

  /** While a request runs, every observer registered when it started receives
      every progress message the handler publishes, once each and in order; no
      other observer receives anything, and a request that never runs the
      process publishes nothing. */
  lemma RequestProgressReceived(obs: map<ObserverId, Callback>, request: Request, env: Environment,
                                utf8: seq<byte> -> Option<string>, t: seq<Action>, o: ObserverId)
    requires RequestTrace(obs, request, env, utf8, t)
    ensures ReceivedBy(t, o) ==
              if Preflight(env.files, env.bundlePath).None? && env.launch.Exited? && o in obs
              then Delivered(env.chunks, utf8) else []
  {
    if Preflight(env.files, env.bundlePath).Some? {
      NoDeliveryIn(t, o);
    } else {
      WhileRunningReceived(obs, env, utf8, t[1..|t| - 2], o);
      ReceivedInside(t, o);
    }
  }

  /** `sent` is a broadcast of `m` to every observer of `obs` outside `pending`. */
  predicate PartialBroadcast(obs: map<ObserverId, Callback>, m: string, pending: set<ObserverId>, sent: seq<Action>)
  {
    && pending <= obs.Keys
    && AllDeliver(obs, m, sent)
    && Recipients(sent) == obs.Keys - pending
    && |sent| == |obs.Keys - pending|
  }

  lemma {:induction false} AllDeliverAppend(obs: map<ObserverId, Callback>, m: string, a: seq<Action>, b: seq<Action>)
    requires AllDeliver(obs, m, a) && AllDeliver(obs, m, b)
    ensures AllDeliver(obs, m, a + b)
  {
    if a == [] {
      assert a + b == b;
    } else {
      AllDeliverAppend(obs, m, a[1..], b);
      assert (a + b)[0] == a[0] && (a + b)[1..] == a[1..] + b;
    }
  }

  lemma {:induction false} RecipientsAppend(a: seq<Action>, b: seq<Action>)
    ensures Recipients(a + b) == Recipients(a) + Recipients(b)
  {
    if a == [] {
      assert a + b == b;
    } else {
      RecipientsAppend(a[1..], b);
      assert (a + b)[0] == a[0] && (a + b)[1..] == a[1..] + b;
    }
  }

  lemma PartialBroadcastStep(obs: map<ObserverId, Callback>, m: string, pending: set<ObserverId>,
                             sent: seq<Action>, o: ObserverId)
    requires PartialBroadcast(obs, m, pending, sent) && o in pending
    ensures PartialBroadcast(obs, m, pending - {o}, sent + [Deliver(o, obs[o], m)])
  {
    var x := [Deliver(o, obs[o], m)];
    assert AllDeliver(obs, m, x) by { assert x[1..] == []; }
    assert Recipients(x) == {o} by { assert x[1..] == []; }
    AllDeliverAppend(obs, m, sent, x);
    RecipientsAppend(sent, x);
    assert obs.Keys - (pending - {o}) == (obs.Keys - pending) + {o};
    assert o !in obs.Keys - pending;
  }

  /** Once nobody is pending, a partial broadcast is a whole one. */
  lemma PartialBroadcastDone(obs: map<ObserverId, Callback>, m: string, sent: seq<Action>)
    requires PartialBroadcast(obs, m, {}, sent)
    ensures IsBroadcast(obs, m, sent)
  {
    assert obs.Keys - {} == obs.Keys;
    assert |obs.Keys| == |obs|;
  }

  /** How a trace that extends `before` splits at `|before|`. A separate
      lemma, so that the loops using it see this equation and no more. */
  lemma SliceSplit(t: seq<Action>, before: seq<Action>, start: nat)
    requires start <= |before| <= |t| && t[..|before|] == before
    ensures t[start..] == before[start..] + t[|before|..]
    ensures t[..start] == before[..start]
  {
  }

  /** Associativity of message lists, stated apart for the same reason. */
  lemma ConcatAssoc(a: seq<string>, b: seq<string>, c: seq<string>)
    ensures a + (b + c) == (a + b) + c
  {
  }

  lemma ClearedAfterBroadcasts(obs: map<ObserverId, Callback>, msgs: seq<string>, body: seq<Action>)
    requires Broadcasts(obs, msgs, body)
    ensures HandlerActions(obs, msgs, true, body + [ClearHandler])
  {
    assert (body + [ClearHandler])[..|body|] == body;
  }

  /** The pieces of `prefix + [x] + body + [y, z]` after `prefix`. */
  lemma Framed<T>(prefix: seq<T>, x: T, body: seq<T>, y: T, z: T, t: seq<T>)
    requires t == prefix + [x] + body + [y, z]
    ensures |t[|prefix|..]| >= 3 && t[|prefix|..][0] == x
    ensures t[|prefix|..][1..|t[|prefix|..]| - 2] == body
    ensures t[|prefix|..][|t[|prefix|..]| - 2..] == [y, z]
    ensures t[..|prefix|] == prefix
  {
    var u := t[|prefix|..];
    assert u == [x] + body + [y, z];
    assert u[1..|u| - 2] == body;
  }

  /** A launched request's actions assembled from their three parts. */
  lemma LaunchedTrace(obs: map<ObserverId, Callback>, request: Request, env: Environment,
                      utf8: seq<byte> -> Option<string>, prefix: seq<Action>, body: seq<Action>, t: seq<Action>)
    requires Preflight(env.files, env.bundlePath).None?
    requires WhileRunning(obs, env, utf8, body)
    requires t == prefix + [Run(Launched(request, env.bundlePath))] + body + [ClearHandler, Reply(ExpectedReply(env, utf8))]
    ensures |t| >= |prefix| && t[..|prefix|] == prefix
    ensures RequestTrace(obs, request, env, utf8, t[|prefix|..])
  {
    Framed(prefix, Run(Launched(request, env.bundlePath)), body, ClearHandler, Reply(ExpectedReply(env, utf8)), t);
  }

  /** The external process as configured: `Process` properties set one after
      another before it is started. */
  class Process {
    var executableURL: string
    var currentDirectory: string
    var arguments: seq<string>

    constructor ()
      ensures executableURL == "" && currentDirectory == "" && arguments == []
    {
      executableURL, currentDirectory, arguments := "", "", [];
    }
  }

  class ImageUpscalerService {
    /** The registered progress observers and their callbacks. */
    var observers: map<ObserverId, Callback>
    /** Everything the service has done that others can observe, in order. */
    var trace: seq<Action>

    constructor ()
      ensures observers == map[] && trace == []
    {
      observers, trace := map[], [];
    }

    /** `performCalculation`: replies with the sum; Swift's `+` traps on
        overflow, and then the service dies without replying. */
    method PerformCalculation(firstNumber: int, secondNumber: int) returns (reply: Option<int>)
      requires IsInt(firstNumber) && IsInt(secondNumber)
      ensures reply.Some? <==> IsInt(firstNumber + secondNumber)
      ensures reply.Some? ==> reply.value - firstNumber == secondNumber
    {
      var response := firstNumber + secondNumber;
      if !IsInt(response) {
        return None;
      }
      reply := Some(response);
    }

    /** Registers `callback` for `observer`, replacing any earlier one. */
    method AddProgressObserver(observer: ObserverId, callback: Callback)
      modifies this
      ensures observers == old(observers)[observer := callback]
      ensures |observers| == |old(observers)| + (if observer in old(observers) then 0 else 1)
      ensures trace == old(trace)
    {
      observers := observers[observer := callback];
      assert observers.Keys == old(observers).Keys + {observer};
    }

    /** Removes `observer`; nothing happens if it is not registered. */
    method RemoveProgressObserver(observer: ObserverId)
      modifies this
      ensures observers == old(observers) - {observer}
      ensures |observers| == |old(observers)| - (if observer in old(observers) then 1 else 0)
      ensures trace == old(trace)
    {
      observers := observers - {observer};
      assert observer in old(observers) ==> old(observers).Keys == observers.Keys + {observer};
    }

    /** Invokes every registered callback once with `message`, in the
        dictionary's (unspecified) order. */
    method NotifyProgress(message: string)
      modifies this
      ensures observers == old(observers)
      ensures |trace| >= |old(trace)| && trace[..|old(trace)|] == old(trace)
      ensures IsBroadcast(observers, message, trace[|old(trace)|..])
    {
      var registered := observers;
      var pending := registered.Keys;
      var sent: seq<Action> := [];
      while pending != {}
        invariant observers == registered && trace == old(trace) + sent
        invariant PartialBroadcast(registered, message, pending, sent)
        decreases pending
      {
        var observer :| observer in pending;
        var delivery := Deliver(observer, registered[observer], message);
        PartialBroadcastStep(registered, message, pending, sent, observer);
        sent := sent + [delivery];
        trace := trace + [delivery];
        pending := pending - {observer};
      }
      PartialBroadcastDone(registered, message, sent);
      assert trace[|old(trace)|..] == sent;
    }

    /** What the handler does with one line of decoded output: a line holding
        a '%' is reported to every observer, any other line is only logged. */
    method RelayLine(line: string)
      modifies this
      ensures observers == old(observers)
      ensures LineMessage(line).None? ==> trace == old(trace)
      ensures LineMessage(line).Some? ==>
                && |trace| >= |old(trace)| && trace[..|old(trace)|] == old(trace)
                && IsBroadcast(observers, LineMessage(line).value, trace[|old(trace)|..])
    {
      if '%' in line {
        var progress := FirstContaining(Split(line, ' '), '%');
        if progress.Some? {
          NotifyProgress(ProgressPrefix + progress.value);
        }
      }
    }

    /** The handler's walk over the lines of one decoded chunk, in order. */
    method RelayLines(lines: seq<string>)
      modifies this
      ensures observers == old(observers)
      ensures |trace| >= |old(trace)| && trace[..|old(trace)|] == old(trace)
      ensures Broadcasts(observers, LinesMessages(lines), trace[|old(trace)|..])
    {
      var rest := lines;
      ghost var start := |trace|;
      ghost var msgs: seq<string> := [];
      while rest != []
        invariant observers == old(observers)
        invariant start == |old(trace)| <= |trace| && trace[..start] == old(trace)
        invariant LinesMessages(lines) == msgs + LinesMessages(rest)
        invariant Broadcasts(observers, msgs, trace[start..])
        decreases |rest|
      {
        var line := rest[0];
        ghost var before := trace;
        RelayLine(line);
        match LineMessage(line) {
          case None =>
            assert LinesMessages(rest) == LinesMessages(rest[1..]);
          case Some(message) =>
            assert LinesMessages(rest) == [message] + LinesMessages(rest[1..]);
            SliceSplit(trace, before, start);
            BroadcastsSingle(observers, message, trace[|before|..]);
            BroadcastsAppend(observers, msgs, before[start..], [message], trace[|before|..]);
            ConcatAssoc(msgs, [message], LinesMessages(rest[1..]));
            msgs := msgs + [message];
        }
        rest := rest[1..];
      }
      assert msgs + LinesMessages(rest) == msgs;
    }

    /** The readability handler, called with what one read returned: a
        zero-byte read detaches the handler; otherwise each '\n'-separated line
        holding a '%' is reported to every observer. */
    method HandleReadable(data: seq<byte>, utf8: seq<byte> -> Option<string>) returns (detached: bool)
      modifies this
      ensures observers == old(observers)
      ensures detached <==> |data| == 0
      ensures detached ==> trace == old(trace) + [ClearHandler]
      ensures !detached ==>
                && |trace| >= |old(trace)| && trace[..|old(trace)|] == old(trace)
                && Broadcasts(observers, ChunkMessages(data, utf8), trace[|old(trace)|..])
    {
      if |data| > 0 {
        detached := false;
        match utf8(data)
        case None =>
          // the chunk is logged as undecodable and otherwise ignored
          assert trace[|old(trace)|..] == [];
        case Some(output) =>
          RelayLines(Split(output, '\n'));
      } else {
        detached := true;
        trace := trace + [ClearHandler];
      }
    }

    /** The readability handler over the lifetime of the process: each chunk
        read is relayed, until a zero-byte read makes the handler clear itself. */
    method RelayOutput(chunks: seq<seq<byte>>, utf8: seq<byte> -> Option<string>)
      modifies this
      ensures observers == old(observers)
      ensures |trace| >= |old(trace)| && trace[..|old(trace)|] == old(trace)
      ensures HandlerActions(observers, Delivered(chunks, utf8), Detaches(chunks), trace[|old(trace)|..])
    {
      ghost var base := |trace|;
      var attached := true;
      var rest := chunks;
      ghost var msgs: seq<string> := [];
      while attached && rest != []
        invariant observers == old(observers)
        invariant base <= |trace| && trace[..base] == old(trace)
        invariant attached ==>
                    && Delivered(chunks, utf8) == msgs + Delivered(rest, utf8)
                    && (Detaches(chunks) <==> Detaches(rest))
                    && Broadcasts(observers, msgs, trace[base..])
        invariant !attached ==>
                    && Delivered(chunks, utf8) == msgs && Detaches(chunks)
                    && HandlerActions(observers, msgs, true, trace[base..])
        decreases |rest|
      {
        ghost var before := trace;
        var detached := HandleReadable(rest[0], utf8);
        SliceSplit(trace, before, base);
        if detached {
          attached := false;
          assert Delivered(rest, utf8) == [] && Detaches(rest);
          ClearedAfterBroadcasts(observers, msgs, before[base..]);
        } else {
          var m := ChunkMessages(rest[0], utf8);
          assert Delivered(rest, utf8) == m + Delivered(rest[1..], utf8);
          assert Detaches(rest) <==> Detaches(rest[1..]);
          ConcatAssoc(msgs, m, Delivered(rest[1..], utf8));
          BroadcastsAppend(observers, msgs, before[base..], m, trace[|before|..]);
          msgs := msgs + m;
        }
        rest := rest[1..];
      }
      if attached {
        assert rest == [];
        assert Delivered(chunks, utf8) == msgs && !Detaches(chunks);
      }
    }

    /** The checks before launch, in order: the resources directory, the
        binary, then each model file; the first that fails gives the error. */
    static method CheckResources(files: set<string>, bundlePath: string) returns (missing: Option<NSError>)
      ensures missing == Preflight(files, bundlePath)
    {
      var resourcesPath := bundlePath + "/Contents/Resources";
      var waifu2xPath := resourcesPath + "/waifu2x-ncnn-vulkan";
      assert waifu2xPath == BinaryPath(bundlePath);
      if resourcesPath !in files {
        return Some(NSError(Domain, 1, "Resources directory not found"));
      }
      if waifu2xPath !in files {
        return Some(NSError(Domain, 2, "waifu2x-ncnn-vulkan not found"));
      }
      var modelsPath := resourcesPath;
      var requiredModelFiles := ModelFiles;
      var i := 0;
      while i < |requiredModelFiles|
        invariant 0 <= i <= |requiredModelFiles|
        invariant forall j :: 0 <= j < i ==> AppendingPathComponent(modelsPath, requiredModelFiles[j]) in files
      {
        var modelFile := requiredModelFiles[i];
        var modelPath := AppendingPathComponent(modelsPath, modelFile);
        if modelPath !in files {
          assert FirstMissingModel(files, modelsPath, requiredModelFiles) == Some(modelFile);
          return Some(NSError(Domain, 4, "Model file not found: " + modelFile));
        }
        i := i + 1;
      }
      return None;
    }

    /** How `upscaleImage` sets up the process: the binary in the resources
        directory, the argument list, and a working directory that is first
        the temporary work directory and then, overriding it, the resources
        directory. */
    static method ConfigureProcess(request: Request, bundlePath: string, temporaryDirectory: string)
      returns (invocation: Invocation)
      ensures invocation == Launched(request, bundlePath)
    {
      var resourcesPath := bundlePath + "/Contents/Resources";
      var waifu2xPath := resourcesPath + "/waifu2x-ncnn-vulkan";
      assert waifu2xPath == BinaryPath(bundlePath);
      var workDirPath := temporaryDirectory + "/waifu2x-work";
      var process := new Process();
      process.executableURL := waifu2xPath;
      process.currentDirectory := workDirPath;
      var arguments := ["-i", request.inputPath, "-o", request.outputPath, "-n", "2",
                        "-s", IntToString(request.scale), "-m", "models-cunet", "-v"];
      arguments := arguments + ["-g", "0"];
      process.arguments := arguments;
      process.currentDirectory := resourcesPath;
      invocation := Invocation(process.executableURL, process.currentDirectory, process.arguments);
    }

    /** `upscaleImage`: checks the resources, starts the external tool, relays
        its progress while it runs and sends the one reply. */
    method UpscaleImage(request: Request, env: Environment, utf8: seq<byte> -> Option<string>)
      requires PipeConsistent(env)
      modifies this
      ensures observers == old(observers)
      ensures |trace| >= |old(trace)| && trace[..|old(trace)|] == old(trace)
      ensures RequestTrace(observers, request, env, utf8, trace[|old(trace)|..])
    {
      var missing := CheckResources(env.files, env.bundlePath);
      if missing.Some? {
        trace := trace + [Reply(missing)];
      } else {
        RunTool(request, env, utf8);
      }
    }

    /** The part of `upscaleImage` after the checks pass: the process is
        configured and started, its output relayed, and the reply sent. */
    method RunTool(request: Request, env: Environment, utf8: seq<byte> -> Option<string>)
      requires Preflight(env.files, env.bundlePath).None?
      modifies this
      ensures observers == old(observers)
      ensures |trace| >= |old(trace)| && trace[..|old(trace)|] == old(trace)
      ensures RequestTrace(observers, request, env, utf8, trace[|old(trace)|..])
    {
      var invocation := ConfigureProcess(request, env.bundlePath, env.temporaryDirectory);
      trace := trace + [Run(invocation)];
      ghost var started := trace;
      match env.launch
      case LaunchFailed(error) =>
        trace := trace + [ClearHandler, Reply(Some(error))];
        assert trace == old(trace) + [Run(invocation)] + [] + [ClearHandler, Reply(Some(error))];
        LaunchedTrace(observers, request, env, utf8, old(trace), [], trace);
      case Exited(status) =>
        RelayOutput(env.chunks, utf8);
        ghost var body := trace[|started|..];
        assert trace == started + body;
        var reply: Option<NSError> := None;
        if status != 0 {
          var output := match utf8(env.remaining) case Some(text) => text case None => "Unknown error";
          reply := Some(NSError(Domain, status, output));
        }
        assert reply == ExpectedReply(env, utf8);
        trace := trace + [ClearHandler, Reply(reply)];
        assert trace == old(trace) + [Run(invocation)] + body + [ClearHandler, Reply(reply)];
        LaunchedTrace(observers, request, env, utf8, old(trace), body, trace);
    }
  }
}

=== FILE: tokens.dfy ===
/** Swift's `split(separator:)` on a string with its default of dropping
    empty pieces, and `first(where:)` for a piece containing a character. */
module Tokens {
  import opened Common

  /** Length of the leading run of `s` that holds no `sep`. */
  function RunLength(s: string, sep: char): (n: nat)
    ensures n <= |s| && sep !in s[..n]
    ensures n < |s| ==> s[n] == sep
    ensures |s| > 0 && s[0] != sep ==> n >= 1
  {
    if s == [] || s[0] == sep then 0
    else
      var n := 1 + RunLength(s[1..], sep);
      assert s[..n] == [s[0]] + s[1..][..n - 1];
      n
  }

  /** The maximal runs of `s` free of `sep`, in order; runs of separators and
      separators at either end yield no empty piece. */
  function Split(s: string, sep: char): (r: seq<string>)
    ensures forall k :: 0 <= k < |r| ==> |r[k]| > 0 && sep !in r[k]
    decreases |s|
  {
    if s == [] then []
    else if s[0] == sep then Split(s[1..], sep)
    else
      var n := RunLength(s, sep);
      [s[..n]] + Split(s[n..], sep)
  }

  /** `s` with every occurrence of `c` deleted. */
  function Without(s: string, c: char): string
  {
    if s == [] then [] else (if s[0] == c then [] else [s[0]]) + Without(s[1..], c)
  }

  function Concat(ps: seq<string>): string
  {
    if ps == [] then [] else ps[0] + Concat(ps[1..])
  }

  /** The pieces joined with one separator between neighbours. */
  function Join(ps: seq<string>, sep: char): string
  {
    if ps == [] then []
    else if |ps| == 1 then ps[0]
    else ps[0] + [sep] + Join(ps[1..], sep)
  }

  lemma {:induction false} WithoutAppend(a: string, b: string, c: char)
    ensures Without(a + b, c) == Without(a, c) + Without(b, c)
  {
    if a == [] {
      assert a + b == b;
    } else {
      var h := if a[0] == c then [] else [a[0]];
      var r, rb := Without(a[1..], c), Without(b, c);
      assert Without(a + b, c) == h + Without(a[1..] + b, c) by {
        assert (a + b)[0] == a[0] && (a + b)[1..] == a[1..] + b;
      }
      WithoutAppend(a[1..], b, c);
      assert h + (r + rb) == (h + r) + rb;
    }
  }

  lemma {:induction false} WithoutAbsent(s: string, c: char)
    requires c !in s
    ensures Without(s, c) == s
  {
    if s != [] {
      WithoutAbsent(s[1..], c);
    }
  }

  /** Splitting loses exactly the separators: the pieces, put back together,
      are `s` with its separators removed. */
  lemma {:induction false} SplitKeepsEverythingElse(s: string, sep: char)
    ensures Concat(Split(s, sep)) == Without(s, sep)
    decreases |s|
  {
    if s == [] {
    } else if s[0] == sep {
      SplitKeepsEverythingElse(s[1..], sep);
    } else {
      var n := RunLength(s, sep);
      SplitKeepsEverythingElse(s[n..], sep);
      assert s == s[..n] + s[n..];
      WithoutAppend(s[..n], s[n..], sep);
      WithoutAbsent(s[..n], sep);
    }
  }

  lemma {:induction false} InConcat(ps: seq<string>, c: char)
    requires c in Concat(ps)
    ensures exists k :: 0 <= k < |ps| && c in ps[k]
  {
    if c in ps[0] {
    } else {
      InConcat(ps[1..], c);
      var k :| 0 <= k < |ps[1..]| && c in ps[1..][k];
      assert c in ps[k + 1];
    }
  }

  lemma {:induction false} InWithout(s: string, c: char, d: char)
    requires d in s && d != c
    ensures d in Without(s, c)
  {
    if s[0] != d {
      InWithout(s[1..], c, d);
    }
  }

  /** Every character of `s` other than the separator lies in some piece. */
  lemma SplitCovers(s: string, sep: char, d: char)
    requires d in s && d != sep
    ensures exists k :: 0 <= k < |Split(s, sep)| && d in Split(s, sep)[k]
  {
    InWithout(s, sep, d);
    SplitKeepsEverythingElse(s, sep);
    InConcat(Split(s, sep), d);
  }

  lemma {:induction false} RunOfPiece(p: string, rest: string, sep: char)
    requires |p| > 0 && sep !in p
    requires rest == [] || rest[0] == sep
    ensures RunLength(p + rest, sep) == |p|
    decreases |p|
  {
    if |p| > 1 {
      RunOfPiece(p[1..], rest, sep);
      assert (p + rest)[1..] == p[1..] + rest;
    } else {
      assert (p + rest)[1..] == rest;
    }
  }

  /** Splitting undoes joining with single separators whenever the pieces
      are non-empty and free of the separator. */
  lemma {:induction false} SplitJoin(ps: seq<string>, sep: char)
    requires forall k :: 0 <= k < |ps| ==> |ps[k]| > 0 && sep !in ps[k]
    ensures Split(Join(ps, sep), sep) == ps
  {
    if |ps| == 1 {
      RunOfPiece(ps[0], [], sep);
      assert ps[0] + [] == ps[0];
    } else if |ps| > 1 {
      var rest := [sep] + Join(ps[1..], sep);
      var s := Join(ps, sep);
      assert s == ps[0] + rest;
      RunOfPiece(ps[0], rest, sep);
      assert s[..|ps[0]|] == ps[0];
      assert s[|ps[0]|..] == rest;
      assert Split(rest, sep) == Split(Join(ps[1..], sep), sep);
      SplitJoin(ps[1..], sep);
    }
  }

  /** A separator ends the leading run, whatever follows it. */
  lemma {:induction false} RunBeforeSeparator(a: string, rest: string, sep: char)
    requires |rest| > 0 && rest[0] == sep
    ensures RunLength(a + rest, sep) == RunLength(a, sep)
  {
    if a == [] {
      assert a + rest == rest;
    } else if a[0] != sep {
      RunBeforeSeparator(a[1..], rest, sep);
      assert (a + rest)[1..] == a[1..] + rest;
    }
  }

  /** Splitting at one separator splits the text on either side of it
      independently. With `Split(p, sep) == [p]` for a non-empty separator-free
      `p` (from `SplitJoin`) and `Split([sep] + s, sep) == Split(s, sep)`, this
      pins down `Split` on every text: leading, trailing and repeated
      separators yield no pieces, and the pieces are the maximal runs. */
  lemma {:induction false} SplitSep(a: string, b: string, sep: char)
    ensures Split(a + [sep] + b, sep) == Split(a, sep) + Split(b, sep)
  {
    var rest := [sep] + b;
    assert a + [sep] + b == a + rest;
    SplitAround(a, rest, sep);
  }

  /** `SplitSep` with the separator and what follows it kept together. */
  lemma {:induction false} SplitAround(a: string, rest: string, sep: char)
    requires |rest| > 0 && rest[0] == sep
    ensures Split(a + rest, sep) == Split(a, sep) + Split(rest[1..], sep)
    decreases |a|
  {
    if a == [] {
      assert a + rest == rest;
    } else if a[0] == sep {
      assert (a + rest)[0] == sep && (a + rest)[1..] == a[1..] + rest;
      SplitAround(a[1..], rest, sep);
    } else {
      var s, n := a + rest, RunLength(a, sep);
      var p, x, y := [a[..n]], Split(a[n..], sep), Split(rest[1..], sep);
      assert Split(s, sep) == p + Split(a[n..] + rest, sep) by {
        RunBeforeSeparator(a, rest, sep);
        assert s[0] == a[0] && s[..n] == a[..n] && s[n..] == a[n..] + rest;
      }
      SplitAround(a[n..], rest, sep);
      Regroup(p, x, y);
    }
  }

  /** Associativity, proved apart from the facts about `Split` in scope above. */
  lemma Regroup<T>(p: seq<T>, x: seq<T>, y: seq<T>)
    ensures p + (x + y) == (p + x) + y
  {
  }

  /** `ps.first(where: { $0.contains(c) })`. */
  function FirstContaining(ps: seq<string>, c: char): (r: Option<string>)
    ensures r.Some? <==> exists k :: 0 <= k < |ps| && c in ps[k]
    ensures r.Some? ==> exists k :: 0 <= k < |ps| && ps[k] == r.value && c in ps[k]
                                    && forall j :: 0 <= j < k ==> c !in ps[j]
  {
    if ps == [] then None
    else if c in ps[0] then Some(ps[0])
    else
      var r := FirstContaining(ps[1..], c);
      assert forall k :: 1 <= k < |ps| ==> ps[k] == ps[1..][k - 1];
      r
  }
}
